=== FILE: README.md ===
# Cappie device handling, modelled in Dafny

Cappie is a macOS capture-preview-and-record utility. This project models the two pieces
of it that handle devices:

- `DeviceManager` (`Cappie/DeviceManager.swift`) owns one capture session. It does four things:
  - keeps the volume save-and-restore state (`mute`, `unmute`, `toggleMute`, `setVolume`, `getVolume`);
  - adds, removes and resets inputs and outputs;
  - starts and stops the session;
  - runs `configure`, which acts on the authorization status, adds the device's input and then
    negotiates a frame rate (video) or attaches an audio-preview output (audio).

  It also lists the available devices sorted by name (`getAllDevices`). The `AVCaptureDevice`
  extension `set(frameRate:width:height:)` picks a format by a first-match search.
- `DeviceInterface` (`Cappie/DeviceInterface.swift`) is a device descriptor. It picks the first
  discovered device whose name contains a search string, and the platform default otherwise.

Files and modules:

| file | module | what it holds |
|---|---|---|
| `wrappers.dfy` | `Wrappers` | `Option`, for Swift optionals |
| `text.dfy` | `Text` | case-sensitive substring test (`String.contains`), lexicographic order (`String <`) |
| `frame_rate.dfy` | `FrameRate` | format records and the specification of the frame-rate format search |
| `capture.dfy` | `Capture` | stand-ins for the framework: `CaptureDevice` (a class, holding the frame-rate extension as `SetFrameRate`), inputs, outputs, `CaptureSession` (a class) |
| `interfaces.dfy` | `Interfaces` | `DeviceInterface` and its initializer `MakeInterface` |
| `volume.dfy` | `Volume` | the volume state machine as functions on (saved volume, outputs) |
| `admission.dfy` | `Admission` | what `addInput` does to the input list |
| `authorization.dfy` | `Authorization` | the authorization decision of `configure` |
| `catalog.dfy` | `Catalog` | the descriptors `getAllDevices` builds, and their sort |
| `manager.dfy` | `Manager` | the `DeviceManager` class |

The framework's own decisions become parameters of the model:
- the admission check `canAddInput` is a function the session is created with;
- the outcome of `lockForConfiguration` is a list with one boolean per format (each format is tried at most once);
- whether `AVCaptureDeviceInput(device:)` succeeds is a boolean;
- the devices a discovery session returns are a list of devices;
- `AVCaptureDevice.default(for:)` is an optional device;
- the authorization status at each entry of `configure`, and each access-prompt answer, are lists.

Behaviour of the code that the model keeps, although a reader might expect otherwise:
- With no outputs, `getAudioOutput` returns a fresh, detached audio-preview output; the volume
  calls are not no-ops on "volume 0". `mute` saves that fresh output's volume, and `toggleMute`
  reports whether it is positive. The fresh volume is a framework value and stays unknown in the
  model (`Volume.FreshPreviewVolume`).
- The frame-rate search always requires the exact width and height (1920x1080 by default). A
  failed configuration lock moves on to the next format; it does not end the search. `configure`
  asks for 60 frames per second, not 30.
- `addAudioOutput` attaches its output without an admission check.
- A failed device lookup with no default device is a crash (force unwrap), not a reported error.
  It is modelled as a precondition (`Interfaces.Choosable`).
- Nothing requires a configuration transaction to be open when inputs or outputs change.
  `stopRunning` removes them after `startRunning` has committed.

## Model

| member | source | states |
|---|---|---|
| `Text.ContainsIffOccurs` | Cappie/DeviceInterface.swift:22 | the substring test used for the name match holds exactly when the search string occurs at some index of the name |
| `Text.LessTrichotomy` | Cappie/DeviceManager.swift:236 | the name order used by the sort is asymmetric and total: exactly one of a < b, a == b, b < a |
| `FrameRate.FirstSuitable` | Cappie/DeviceManager.swift:249-263 | the result is the first format index that has a range with maxFrameRate >= the rate, has exactly the requested width and height, and whose lock succeeds; no earlier index has all three; None when no index has them |
| `FrameRate.ApplyFrameRate` | Cappie/DeviceManager.swift:247-273 | with no suitable format the device state is unchanged; otherwise the active format is the first format that qualifies and whose lock succeeds (`FirstSuitable`), and only the timescales of the active min/max frame durations are replaced, by those of that format's first range |
| `FrameRate.UniqueCandidateChosen` | Cappie/DeviceManager.swift:249-263 | when exactly one format qualifies and its lock succeeds, that format becomes active |
| `FrameRate.NoCandidateKeepsState` | Cappie/DeviceManager.swift:248-272 | when no format qualifies, active format and durations are unchanged |
| `FrameRate.LockFailureSkips` | Cappie/DeviceManager.swift:254-266 | a lock failure on a format only skips it: the search goes on after it as if it had started there |
| `Capture.CaptureDevice.SetFrameRate` | Cappie/DeviceManager.swift:246-273 | the loop with its flag and `break` leaves the device in the state `ApplyFrameRate` gives; the flag (false when the "no supported format" message is logged) is set exactly when a suitable format exists |
| `Interfaces.FirstMatch` | Cappie/DeviceInterface.swift:22 | the result is the first device whose name contains the search string; no earlier device's name contains it; None when no device's name does |
| `Interfaces.MakeInterface` | Cappie/DeviceInterface.swift:12-28 | with a match, the chosen device is a discovered device whose name contains the search string; without one, it is the platform default. deviceName is the chosen device's own name, deviceType is the one-element list of its type (whatever filter was passed), mediaType is the argument, position is the device's (not the filter) |
| `Interfaces.ChoosesFirstContaining` | Cappie/DeviceInterface.swift:22 | the first discovered device whose name contains the search string is the chosen one |
| `Interfaces.FallsBackToDefault` | Cappie/DeviceInterface.swift:22 | when no discovered name contains the search string, the platform default is chosen |
| `Interfaces.NoMatchNoDefaultCrashes` | Cappie/DeviceInterface.swift:22 | no match and no default device leaves the force unwrap without a value |
| `Interfaces.UsbSearchExample` | Cappie/DeviceInterface.swift:19-24 | among "FaceTime HD Camera" and "USB Video Device", searching "USB" chooses "USB Video Device" |
| `Volume.AudioOutput` | Cappie/DeviceManager.swift:212-219 | the result is an audio-preview output: the first output when there is one (force cast), otherwise a fresh one with the default volume and no output device |
| `Volume.WithOutputVolume` | Cappie/DeviceManager.swift:124 | writing the volume of the audio output changes only the first output's volume; with no outputs nothing changes |
| `Volume.Mute` | Cappie/DeviceManager.swift:121-125 | the saved volume becomes the pre-mute output volume; an attached first output's volume becomes 0 and nothing else about the outputs changes (its device ID and the other outputs are kept) |
| `Volume.Unmute` | Cappie/DeviceManager.swift:130-133 | an attached first output's volume becomes the saved volume and nothing else about the outputs changes (its device ID and the other outputs are kept); the saved volume is unchanged; with no outputs nothing changes |
| `Volume.SetVolume` | Cappie/DeviceManager.swift:103-108 | the argument is ignored: the effect is exactly that of unmute, writing the saved volume to the output |
| `Volume.ToggleMute` | Cappie/DeviceManager.swift:138-150 | the new state is that of unmute when the output volume is exactly 0 and that of mute otherwise; with an attached output, the result says whether the output is audible afterwards, which holds exactly when its volume was 0 and the saved volume is positive; with no outputs, the result says whether the fresh output's volume is positive |
| `Volume.MuteUnmuteRestores` | Cappie/DeviceManager.swift:121-133 | mute followed by unmute gives back the original outputs, volume included |
| `Volume.MuteTwiceForgetsLevel` | Cappie/DeviceManager.swift:121-133 | with an attached output, a second mute before unmute saves 0, so the next unmute leaves the output silent |
| `Volume.ToggleMuteTwiceRestores` | Cappie/DeviceManager.swift:138-150 | with an attached output, two toggles restore the outputs, and the second reports whether the original volume was positive |
| `Volume.DetachedOutputWhenEmpty` | Cappie/DeviceManager.swift:212-216 | with no outputs, unmute and setVolume change nothing, mute saves the fresh output's volume, and toggle changes nothing and reports false when that volume is 0, and otherwise acts as mute and reports whether it is positive |
| `Admission.AfterAdd` | Cappie/DeviceManager.swift:152-159 | an absent input or one the admission check refuses leaves the inputs unchanged; an admitted input is appended |
| `Admission.AddAllExtends` | Cappie/DeviceManager.swift:161-166 | adding a list keeps the existing inputs as a prefix and appends only offered inputs, each at most as often as offered |
| `Admission.AddAllAdmitted` | Cappie/DeviceManager.swift:161-166 | when everything is admitted, the whole list is appended in order |
| `Admission.AddAllRefused` | Cappie/DeviceManager.swift:161-166 | when everything is refused, the inputs are unchanged |
| `Authorization.ReachesIff` | Cappie/DeviceManager.swift:36-55 | configure reaches its authorized branch, the only branch that can change the session or the device, exactly when some entry sees "authorized" and every earlier entry saw "not determined" with access granted |
| `Authorization.RefusalChangesNothing` | Cappie/DeviceManager.swift:45-54 | restricted, denied, or an undetermined status whose prompt is refused, leads to no mutation |
| `Catalog.InsertByName` | Cappie/DeviceManager.swift:236 | inserting into a list whose names never increase keeps that order and adds exactly the one element |
| `Catalog.SortByNameDescending` | Cappie/DeviceManager.swift:236 | the sorted list is a permutation of the input whose names never increase |
| `Catalog.DescribeAll` | Cappie/DeviceManager.swift:229-234 | one descriptor per listed device, in discovery order, each for the media type; each describes a rediscovered device whose name contains the listed name, or the platform default |
| `Catalog.DescribeAllCanDuplicate` | Cappie/DeviceManager.swift:231-233 | with "USB Mic 2" discovered before "USB Mic", both descriptors describe "USB Mic 2" |
| `Catalog.DescribeEach` | Cappie/DeviceManager.swift:231-233 | the intended descriptors: descriptor i describes listed device i, with its name and the media type |
| `Catalog.DescribeAllExact` | Cappie/DeviceManager.swift:231-233 | when every lookup by name finds the listed device itself, the built descriptors are the intended ones |
| `Catalog.DescribeAllExactWhenNamesDistinct` | Cappie/DeviceManager.swift:231-233 | when no listed name contains another, the built descriptors are the intended ones |
| `Manager.DeviceManager.constructor` | Cappie/DeviceManager.swift:13-27 | a fresh session with no inputs or outputs, inside a configuration transaction, not running, preset 1920x1080; saved volume 1 |
| `Manager.DeviceManager.GetVolume` | Cappie/DeviceManager.swift:113-116 | the first output's volume, or the fresh output's default volume when there is none |
| `Manager.DeviceManager.Mute` | Cappie/DeviceManager.swift:121-125 | the new saved volume and outputs are those of `Volume.Mute`; inputs and flags do not change |
| `Manager.DeviceManager.Unmute` | Cappie/DeviceManager.swift:130-133 | the outputs become those of `Volume.Unmute`; the saved volume does not change |
| `Manager.DeviceManager.SetVolume` | Cappie/DeviceManager.swift:103-108 | the outputs become those of `Volume.SetVolume`, whatever the argument |
| `Manager.DeviceManager.ToggleMute` | Cappie/DeviceManager.swift:138-150 | the new state and the result are those of `Volume.ToggleMute` |
| `Manager.DeviceManager.AddInput` | Cappie/DeviceManager.swift:152-159 | the inputs become `AfterAdd` of the old ones: unchanged for an absent or refused input, otherwise exactly that input appended |
| `Manager.DeviceManager.AddInputs` | Cappie/DeviceManager.swift:161-166 | the inputs become those of offering each input in order |
| `Manager.DeviceManager.AddInputFor` | Cappie/DeviceManager.swift:168-172 | the device's input is offered when it can be created; when it cannot, nothing changes |
| `Manager.DeviceManager.ResetInputs` | Cappie/DeviceManager.swift:174-179 | no inputs remain, and only the inputs change, so a second call changes nothing |
| `Manager.DeviceManager.AddAudioOutput` | Cappie/DeviceManager.swift:191-198 | exactly one audio-preview output, bound to the device ID, with volume 1, is appended without an admission check |
| `Manager.DeviceManager.ResetOutputs` | Cappie/DeviceManager.swift:200-205 | no outputs remain, and only the outputs change, so a second call changes nothing |
| `Manager.DeviceManager.StartRunning` | Cappie/DeviceManager.swift:81-85 | the transaction is committed and the session runs; inputs and outputs are unchanged |
| `Manager.DeviceManager.StopRunning` | Cappie/DeviceManager.swift:90-96 | no inputs, no outputs, not running |
| `Manager.DeviceManager.Configure` | Cappie/DeviceManager.swift:30-57 | without authorization nothing changes. With authorization, the device input is offered to the session; then a video device gets the 60 fps, 1920x1080 frame-rate search, and an audio device gets an audio-preview output bound to its unique ID with volume 1 |
| `Manager.DeviceManager.GetAllDevices` | Cappie/DeviceManager.swift:221-237 | one descriptor per discovered device, a permutation of those `DescribeAll` builds, ordered so that names never increase |
| `Manager.DeviceManager.GetAllDevicesExact` | Cappie/DeviceManager.swift:221-237 | the corrected listing: a permutation of one descriptor per discovered device describing that device, with names that never increase |

## Findings

| source | as written | input that shows it | evidently intended | confidence | as-written member | corrected member |
|---|---|---|---|---|---|---|
| Cappie/DeviceManager.swift:231-233 | each listed device is described by `DeviceInterface(searchName: device.localizedName, ...)`, which looks the device up again by substring of its name and takes the first device whose name contains it | devices "USB Mic 2" and "USB Mic", discovered in that order: both descriptors describe "USB Mic 2", and "USB Mic" cannot be selected | one descriptor per discovered device, describing that device | medium, not executed | `Catalog.DescribeAllCanDuplicate` | `Manager.DeviceManager.GetAllDevicesExact` |

## Left out

- Concurrency: the `queue.async` wrapper of `configure` is left out. Its body is one synchronous step.
- `requestAccess`: its result is set in an asynchronous callback. It is modelled as the `granted` answers of `Configure`; the race is not modelled.
- Configure: it requires that the chain of "not determined, access granted" re-entries ends within the supplied answers (`Settles`). A chain that never ends, which the source would run forever, is not modelled.
- `@unknown default` in `configure`: the authorization status has exactly its four known values here, so that branch does not arise.
- `addVideoOutput` and the `videoOutput` field: a thin wrapper over the framework (a force-unwrapped connection and codec settings).
- `getSession`: a getter; the model's `session` field is read directly.
- Outputs are values in the session's list. Writing the audio output's volume replaces the first element. Aliasing of output objects outside the session is not modelled.
- `AddAudioOutput`: the framework's own refusal (`addOutput` raising when the output cannot be added) is not modelled; the output is always appended.
- The framework internals are parameters: `canAddInput`, `lockForConfiguration`, discovery sessions, `AVCaptureDevice.default` and `CMVideoFormatDescriptionGetDimensions`. Format dimensions are fields of the format record.
- GetAllDevices: every `DeviceInterface` built inside `getAllDevices` runs a discovery of its own. The model gives all of them the same result (`rediscovered`), so devices are assumed not to change during the call.
- FrameRate.ApplyFrameRate: setting `activeFormat` is taken to leave the active min/max frame durations unchanged, so only their timescales are then written. A framework reset of the durations on a format change, and a raise for a duration the format does not support, are not modelled.
- Volume.FreshPreviewVolume: the volume of a newly created audio-preview output is set by the framework, not by this code; the model leaves it unknown, so nothing is promised about what `getVolume`, `mute` and `toggleMute` see with no outputs beyond its value.
- Volumes (`Float`) and frame rates (`Double`) are `real`: they are only stored, copied and compared. Floating-point rounding and the [0, 1] volume range are not modelled.
- String comparison and `contains` compare characters by code. Swift's Unicode canonical equivalence is not modelled. An empty search string is taken to occur in every name.
- Logging (`print`) is left out; the "no supported format" message corresponds to `SetFrameRate` returning `false`.
- `AppDelegate.swift`, `ContentView.swift` and `CameraPreview.swift` are not part of this model. They hold menu and window code, save-panel callbacks, the record toggle and SwiftUI views.

=== FILE: admission.dfy ===
/**
 * What `addInput` does to the session's inputs: an absent input or one the session's
 * admission check refuses leaves them unchanged, an admitted one is appended; the
 * list overload applies this to each input in order.
 */
module Admission {
  import opened Wrappers
  import opened Capture

  /** The inputs after `addInput(input:)`. */
  function AfterAdd(admits: (seq<Input>, Input) -> bool, inputs: seq<Input>, input: Option<Input>): (r: seq<Input>)
    ensures input.None? ==> r == inputs
    ensures input.Some? && !admits(inputs, input.value) ==> r == inputs
    ensures input.Some? && admits(inputs, input.value) ==> r == inputs + [input.value]
  {
    match input
    case None => inputs
    case Some(x) => if admits(inputs, x) then inputs + [x] else inputs
  }

  /** The inputs after `addInput(inputs:)`: each candidate is offered in order. */
  function AfterAddAll(admits: (seq<Input>, Input) -> bool, inputs: seq<Input>, candidates: seq<Input>): seq<Input>
    decreases |candidates|
  {
    if |candidates| == 0 then inputs
    else AfterAddAll(admits, AfterAdd(admits, inputs, Some(candidates[0])), candidates[1..])
  }

  /**
   * Offering a list keeps the existing inputs as a prefix and appends only candidates,
   * each at most as often as it is offered.
   */
  lemma {:induction false} AddAllExtends(admits: (seq<Input>, Input) -> bool, inputs: seq<Input>, candidates: seq<Input>)
    ensures var r := AfterAddAll(admits, inputs, candidates);
            inputs <= r && |r| <= |inputs| + |candidates| && multiset(r[|inputs|..]) <= multiset(candidates)
    decreases |candidates|
  {
    if |candidates| > 0 {
      var x := candidates[0];
      var next := AfterAdd(admits, inputs, Some(x));
      AddAllExtends(admits, next, candidates[1..]);
      var r := AfterAddAll(admits, inputs, candidates);
      assert candidates == [x] + candidates[1..];
      if admits(inputs, x) {
        assert r[|inputs|..] == [x] + r[|next|..];
      } else {
        assert next == inputs;
      }
    }
  }

  /** When the session admits everything, every candidate is appended in order. */
  lemma {:induction false} AddAllAdmitted(admits: (seq<Input>, Input) -> bool, inputs: seq<Input>, candidates: seq<Input>)
    requires forall a, x :: admits(a, x)
    ensures AfterAddAll(admits, inputs, candidates) == inputs + candidates
    decreases |candidates|
  {
    if |candidates| > 0 {
      AddAllAdmitted(admits, inputs + [candidates[0]], candidates[1..]);
      assert inputs + [candidates[0]] + candidates[1..] == inputs + candidates;
    }
  }

  /** When the session refuses everything, the inputs are unchanged. */
  lemma {:induction false} AddAllRefused(admits: (seq<Input>, Input) -> bool, inputs: seq<Input>, candidates: seq<Input>)
    requires forall a, x :: !admits(a, x)
    ensures AfterAddAll(admits, inputs, candidates) == inputs
    decreases |candidates|
  {
    if |candidates| > 0 {
      AddAllRefused(admits, inputs, candidates[1..]);
    }
  }
}

=== FILE: authorization.dfy ===
/**
 * The authorization decision of `configure`. Each (re-)entry asks for the media type's
 * authorization status; `statuses[k]` is the answer at the k-th entry. On "not
 * determined" access is requested and, if `granted[k]`, `configure` runs again.
 */
module Authorization {
  import opened Capture

  /** The chain of re-entries ends within the supplied answers. */
  predicate Settles(statuses: seq<AuthorizationStatus>, granted: seq<bool>)
    requires |granted| == |statuses|
  {
    |statuses| > 0 && (statuses[0] == NotDetermined && granted[0] ==> Settles(statuses[1..], granted[1..]))
  }

  /**
   * Some entry of the chain sees "authorized", so `configure` reaches its authorized branch,
   * the only branch that can change the session or the device.
   */
  predicate ReachesAuthorized(statuses: seq<AuthorizationStatus>, granted: seq<bool>)
    requires |granted| == |statuses|
  {
    |statuses| > 0
    && (statuses[0] == Authorized
        || (statuses[0] == NotDetermined && granted[0] && ReachesAuthorized(statuses[1..], granted[1..])))
  }

  /** Entry `k` is authorized and every earlier entry was undetermined with access granted. */
  predicate AuthorizedAfterRetries(statuses: seq<AuthorizationStatus>, granted: seq<bool>, k: nat)
    requires |granted| == |statuses|
  {
    k < |statuses| && statuses[k] == Authorized
    && forall j :: 0 <= j < k ==> statuses[j] == NotDetermined && granted[j]
  }

  /**
   * `configure` reaches its authorized branch, the only branch that can change the session or
   * the device, exactly when some entry is authorized after granted retries.
   */
  lemma {:induction false} ReachesIff(statuses: seq<AuthorizationStatus>, granted: seq<bool>)
    requires |granted| == |statuses|
    ensures ReachesAuthorized(statuses, granted) <==> exists k: nat :: AuthorizedAfterRetries(statuses, granted, k)
    decreases |statuses|
  {
    if |statuses| > 0 {
      ReachesIff(statuses[1..], granted[1..]);
      if ReachesAuthorized(statuses, granted) {
        if statuses[0] == Authorized {
          assert AuthorizedAfterRetries(statuses, granted, 0);
        } else {
          var k: nat :| AuthorizedAfterRetries(statuses[1..], granted[1..], k);
          assert AuthorizedAfterRetries(statuses, granted, k + 1);
        }
      }
      if k: nat :| AuthorizedAfterRetries(statuses, granted, k) {
        if k > 0 {
          assert AuthorizedAfterRetries(statuses[1..], granted[1..], k - 1);
        }
      }
    }
  }

  /** A restricted or denied status, or a refused prompt, ends `configure` without any change. */
  lemma RefusalChangesNothing(statuses: seq<AuthorizationStatus>, granted: seq<bool>)
    requires |granted| == |statuses| && |statuses| > 0
    requires statuses[0] == Restricted || statuses[0] == Denied || (statuses[0] == NotDetermined && !granted[0])
    ensures !ReachesAuthorized(statuses, granted)
  {
  }
}

=== FILE: capture.dfy ===
/**
 * Stand-ins for the capture framework objects the device code drives: capture devices
 * (with the frame-rate extension the code adds to them), device inputs, outputs and the
 * capture session. Only the state the device code reads or writes is kept; the
 * framework's own decisions (admission of an input, the configuration lock) are
 * supplied from outside.
 */
module Capture {
  import opened Wrappers
  import opened FrameRate

  datatype MediaType = Video | Audio | OtherMedia(identifier: string)

  datatype DeviceType = ExternalUnknown | BuiltInMicrophone | BuiltInWideAngleCamera | OtherDeviceType(identifier: string)

  datatype Position = Unspecified | Back | Front

  /** Capture authorization for one media type. */
  datatype AuthorizationStatus = NotDetermined | Restricted | Denied | Authorized

  datatype Preset = High | HD1920x1080 | OtherPreset(name: string)

  /** A capture device. Its identity and format list are fixed; its active format is not. */
  class CaptureDevice {
    const localizedName: string
    const uniqueID: string
    const deviceType: DeviceType
    const position: Position
    const formats: seq<Format>
    var activeFormat: Format
    var activeVideoMinFrameDuration: Time
    var activeVideoMaxFrameDuration: Time

    constructor (localizedName: string, uniqueID: string, deviceType: DeviceType, position: Position,
                 formats: seq<Format>, initial: FormatState)
      ensures this.localizedName == localizedName && this.uniqueID == uniqueID
      ensures this.deviceType == deviceType && this.position == position && this.formats == formats
      ensures ActiveState() == initial
    {
      this.localizedName := localizedName;
      this.uniqueID := uniqueID;
      this.deviceType := deviceType;
      this.position := position;
      this.formats := formats;
      activeFormat := initial.activeFormat;
      activeVideoMinFrameDuration := initial.activeVideoMinFrameDuration;
      activeVideoMaxFrameDuration := initial.activeVideoMaxFrameDuration;
    }

    function ActiveState(): FormatState
      reads this
    {
      FormatState(activeFormat, activeVideoMinFrameDuration, activeVideoMaxFrameDuration)
    }

    /**
     * `set(frameRate:width:height:)`: walk the formats in order; for each one that has a
     * range reaching `frameRate` and exactly the requested dimensions, try the
     * configuration lock (outcome `lockOk[i]`); on success apply it and stop, on failure
     * go on. `found` is false exactly when the "no supported format" message is logged.
     */
    method SetFrameRate(frameRate: real, width: int, height: int, lockOk: seq<bool>) returns (found: bool)
      requires |lockOk| == |formats|
      modifies this
      ensures found == FirstSuitable(formats, frameRate, width, height, lockOk, 0).Some?
      ensures ActiveState() == ApplyFrameRate(old(ActiveState()), formats, frameRate, width, height, lockOk)
    {
      found := false;
      var i := 0;
      while i < |formats|
        invariant 0 <= i <= |formats|
        invariant FirstSuitable(formats, frameRate, width, height, lockOk, 0)
               == FirstSuitable(formats, frameRate, width, height, lockOk, i)
        invariant ActiveState() == old(ActiveState())
      {
        var format := formats[i];
        var ranges := format.ranges;
        if SupportsRate(ranges, frameRate) {
          if format.width == width && format.height == height {
            if lockOk[i] {
              activeFormat := format;
              var minRate := ranges[0].minFrameDuration.timescale;
              var maxRate := ranges[0].maxFrameDuration.timescale;
              activeVideoMinFrameDuration := activeVideoMinFrameDuration.(timescale := minRate);
              activeVideoMaxFrameDuration := activeVideoMaxFrameDuration.(timescale := maxRate);
              found := true;
              break;
            }
          }
        }
        i := i + 1;
      }
    }
  }

  /** A device input bound to one capture device. */
  datatype Input = DeviceInput(device: CaptureDevice)

  /**
   * An output attached to a session. Audio-preview outputs render audio to an output
   * device (`None` is the system default) at a volume; movie-file outputs record.
   */
  datatype Output = AudioPreviewOutput(outputDeviceUniqueID: Option<string>, volume: real) | MovieFileOutput

  /** `s` with its first occurrence of `x` removed. */
  function RemoveFirst<T(==)>(s: seq<T>, x: T): (r: seq<T>)
    ensures x !in s ==> r == s
    ensures x in s ==> |r| == |s| - 1 && multiset(r) == multiset(s) - multiset{x}
    ensures |s| > 0 && s[0] == x ==> r == s[1..]
  {
    if |s| == 0 then []
    else if s[0] == x then s[1..]
    else
      assert s == [s[0]] + s[1..];
      [s[0]] + RemoveFirst(s[1..], x)
  }

  /** The capture session: its inputs and outputs in attachment order and its two flags. */
  class CaptureSession {
    var inputs: seq<Input>
    var outputs: seq<Output>
    /** Between `beginConfiguration` and `commitConfiguration`. */
    var configuring: bool
    var running: bool
    var sessionPreset: Preset
    /** The framework's admission decision (`canAddInput`), given the inputs already attached. */
    const admits: (seq<Input>, Input) -> bool

    constructor (admits: (seq<Input>, Input) -> bool)
      ensures inputs == [] && outputs == [] && !configuring && !running
      ensures sessionPreset == High && this.admits == admits
    {
      inputs, outputs := [], [];
      configuring, running := false, false;
      sessionPreset := High;
      this.admits := admits;
    }

    predicate CanAddInput(x: Input)
      reads this
    {
      admits(inputs, x)
    }

    method AddInput(x: Input)
      requires CanAddInput(x)
      modifies this`inputs
      ensures inputs == old(inputs) + [x]
    {
      inputs := inputs + [x];
    }

    method RemoveInput(x: Input)
      modifies this`inputs
      ensures inputs == RemoveFirst(old(inputs), x)
    {
      inputs := RemoveFirst(inputs, x);
    }

    method AddOutput(o: Output)
      modifies this`outputs
      ensures outputs == old(outputs) + [o]
    {
      outputs := outputs + [o];
    }

    method RemoveOutput(o: Output)
      modifies this`outputs
      ensures outputs == RemoveFirst(old(outputs), o)
    {
      outputs := RemoveFirst(outputs, o);
    }

    method SetPreset(p: Preset)
      modifies this`sessionPreset
      ensures sessionPreset == p
    {
      sessionPreset := p;
    }

    method BeginConfiguration()
      modifies this`configuring
      ensures configuring
    {
      configuring := true;
    }

    method CommitConfiguration()
      modifies this`configuring
      ensures !configuring
    {
      configuring := false;
    }

    method StartRunning()
      modifies this`running
      ensures running
    {
      running := true;
    }

    method StopRunning()
      modifies this`running
      ensures !running
    {
      running := false;
    }
  }
}

=== FILE: catalog.dfy ===
/**
 * Specification of `getAllDevices`: one descriptor per discovered device, sorted by
 * name, descending (`sorted(by: { $0.deviceName > $1.deviceName })`).
 */
module Catalog {
  import opened Wrappers
  import opened Text
  import opened Capture
  import opened Interfaces

  /** Names never increase from one descriptor to the next. */
  predicate NamesNonIncreasing(xs: seq<DeviceInterface>)
  {
    forall i :: 0 <= i < |xs| - 1 ==> !Less(xs[i].deviceName, xs[i + 1].deviceName)
  }

  /** Insert `x` before the first descriptor whose name is not greater than `x`'s. */
  function InsertByName(x: DeviceInterface, xs: seq<DeviceInterface>): (r: seq<DeviceInterface>)
    requires NamesNonIncreasing(xs)
    ensures |r| == |xs| + 1 && multiset(r) == multiset(xs) + multiset{x}
    ensures r[0] == x || (|xs| > 0 && r[0] == xs[0])
    ensures NamesNonIncreasing(r)
    decreases |xs|
  {
    if |xs| == 0 || !Less(x.deviceName, xs[0].deviceName) then [x] + xs
    else
      LessTrichotomy(x.deviceName, xs[0].deviceName);
      assert xs == [xs[0]] + xs[1..];
      [xs[0]] + InsertByName(x, xs[1..])
  }

  /** `sorted(by: >)` on names: a permutation whose names never increase. */
  function SortByNameDescending(xs: seq<DeviceInterface>): (r: seq<DeviceInterface>)
    ensures |r| == |xs| && multiset(r) == multiset(xs)
    ensures NamesNonIncreasing(r)
  {
    if |xs| == 0 then []
    else
      assert xs == [xs[0]] + xs[1..];
      InsertByName(xs[0], SortByNameDescending(xs[1..]))
  }

  /** Every listed device can be looked up again by its own name without crashing. */
  predicate AllChoosable(listed: seq<CaptureDevice>, rediscovered: seq<CaptureDevice>,
                         platformDefault: Option<CaptureDevice>)
  {
    forall i :: 0 <= i < |listed| ==> Choosable(rediscovered, listed[i].localizedName, platformDefault)
  }

  /**
   * The descriptors `getAllDevices` builds, in discovery order: for each listed device,
   * `DeviceInterface(searchName: device.localizedName, mediaType:)`, whose own discovery
   * (default filters) returns `rediscovered`. Each descriptor is of some rediscovered device
   * whose name contains the listed device's name, or of the platform default.
   */
  function DescribeAll(listed: seq<CaptureDevice>, mediaType: MediaType, rediscovered: seq<CaptureDevice>,
                       platformDefault: Option<CaptureDevice>): (r: seq<DeviceInterface>)
    requires AllChoosable(listed, rediscovered, platformDefault)
    ensures |r| == |listed|
    ensures forall i :: 0 <= i < |r| ==>
              r[i].mediaType == mediaType
              && ((r[i].device in rediscovered && Contains(r[i].deviceName, listed[i].localizedName))
                  || platformDefault == Some(r[i].device))
    decreases |listed|
  {
    if |listed| == 0 then []
    else
      var last := listed[|listed| - 1];
      DescribeAll(listed[..|listed| - 1], mediaType, rediscovered, platformDefault)
        + [MakeInterface(last.localizedName, DefaultDeviceTypes, mediaType, Unspecified, rediscovered, platformDefault)]
  }

  /**
   * When one device's name is a prefix of another's and the longer name is discovered first,
   * both descriptors describe the device with the longer name: the other device is lost.
   */
  lemma DescribeAllCanDuplicate(longer: CaptureDevice, shorter: CaptureDevice, mediaType: MediaType,
                                platformDefault: Option<CaptureDevice>)
    requires longer.localizedName == "USB Mic 2" && shorter.localizedName == "USB Mic"
    ensures AllChoosable([longer, shorter], [longer, shorter], platformDefault)
    ensures DescribeAll([longer, shorter], mediaType, [longer, shorter], platformDefault)
         == [Describe(longer, mediaType), Describe(longer, mediaType)]
    ensures longer != shorter
  {
  }

  /** The evidently intended descriptors: one per listed device, describing that device itself. */
  function DescribeEach(listed: seq<CaptureDevice>, mediaType: MediaType): (r: seq<DeviceInterface>)
    ensures |r| == |listed|
    ensures forall i :: 0 <= i < |r| ==>
              r[i].device == listed[i] && r[i].deviceName == listed[i].localizedName && r[i].mediaType == mediaType
    decreases |listed|
  {
    if |listed| == 0 then []
    else DescribeEach(listed[..|listed| - 1], mediaType) + [Describe(listed[|listed| - 1], mediaType)]
  }

  /** Where every lookup by name finds the listed device itself, the descriptors are the intended ones. */
  lemma {:induction false} DescribeAllExact(listed: seq<CaptureDevice>, mediaType: MediaType,
                                            rediscovered: seq<CaptureDevice>, platformDefault: Option<CaptureDevice>)
    requires AllChoosable(listed, rediscovered, platformDefault)
    requires forall i :: 0 <= i < |listed| ==>
               MakeInterface(listed[i].localizedName, DefaultDeviceTypes, mediaType, Unspecified,
                             rediscovered, platformDefault).device == listed[i]
    ensures DescribeAll(listed, mediaType, rediscovered, platformDefault) == DescribeEach(listed, mediaType)
    decreases |listed|
  {
    if |listed| > 0 {
      var init := listed[..|listed| - 1];
      assert forall i :: 0 <= i < |init| ==> init[i] == listed[i];
      DescribeAllExact(init, mediaType, rediscovered, platformDefault);
    }
  }

  /** When no listed name contains another, each listed device is found again by its own name. */
  lemma DescribeAllExactWhenNamesDistinct(listed: seq<CaptureDevice>, mediaType: MediaType,
                                          platformDefault: Option<CaptureDevice>)
    requires forall i, j :: 0 <= i < |listed| && 0 <= j < |listed| && i != j ==>
               !Contains(listed[j].localizedName, listed[i].localizedName)
    ensures AllChoosable(listed, listed, platformDefault)
    ensures DescribeAll(listed, mediaType, listed, platformDefault) == DescribeEach(listed, mediaType)
  {
    forall i | 0 <= i < |listed|
      ensures FirstMatch(listed, listed[i].localizedName, 0) == Some(i)
    {
      ContainsSelf(listed[i].localizedName);
    }
    DescribeAllExact(listed, mediaType, listed, platformDefault);
  }
}

=== FILE: frame_rate.dfy ===
/**
 * Specification of the frame-rate negotiation in the `AVCaptureDevice.set(frameRate:width:height:)`
 * extension: a first-match search over the device's format records. Frame rates are only
 * compared, never computed with, so they are `real`.
 */
module FrameRate {
  import opened Wrappers

  /** A media time (`CMTime`): `value / timescale` seconds. */
  datatype Time = Time(value: int, timescale: int)

  /** One supported frame-rate range of a format. */
  datatype FrameRateRange = FrameRateRange(
    minFrameRate: real, maxFrameRate: real, minFrameDuration: Time, maxFrameDuration: Time)

  /** A format record: its frame-rate ranges and the pixel dimensions of its description. */
  datatype Format = Format(ranges: seq<FrameRateRange>, width: int, height: int)

  /** The part of a device that the negotiation writes. */
  datatype FormatState = FormatState(
    activeFormat: Format, activeVideoMinFrameDuration: Time, activeVideoMaxFrameDuration: Time)

  /** Default target resolution of `set(frameRate:)`. */
  const DefaultWidth: int := 1920
  const DefaultHeight: int := 1080

  /** Some range of the format reaches the requested rate. */
  predicate SupportsRate(ranges: seq<FrameRateRange>, frameRate: real)
  {
    exists k :: 0 <= k < |ranges| && ranges[k].maxFrameRate >= frameRate
  }

  /** A format the search will try to lock and apply. */
  predicate Qualifies(f: Format, frameRate: real, width: int, height: int)
  {
    SupportsRate(f.ranges, frameRate) && f.width == width && f.height == height
  }

  /**
   * The index, at or after `from`, of the first format that qualifies and whose
   * configuration lock succeeds; `lockOk[i]` is the lock outcome when format `i`
   * is tried.
   */
  function FirstSuitable(formats: seq<Format>, frameRate: real, width: int, height: int,
                         lockOk: seq<bool>, from: nat): (r: Option<nat>)
    requires |lockOk| == |formats| && from <= |formats|
    ensures r.Some? ==>
              from <= r.value < |formats|
              && Qualifies(formats[r.value], frameRate, width, height) && lockOk[r.value]
    ensures forall j :: from <= j < (if r.Some? then r.value else |formats|) ==>
      !(Qualifies(formats[j], frameRate, width, height) && lockOk[j])
    decreases |formats| - from
  {
    if from == |formats| then None
    else if Qualifies(formats[from], frameRate, width, height) && lockOk[from] then Some(from)
    else FirstSuitable(formats, frameRate, width, height, lockOk, from + 1)
  }

  /**
   * The device state after the negotiation: the first format that qualifies and whose lock
   * succeeds becomes active and
   * only the timescales of the active frame durations are taken from its first
   * range; with no choice the state is unchanged. Setting the active format is taken to
   * leave the active durations as they were.
   */
  function ApplyFrameRate(s: FormatState, formats: seq<Format>, frameRate: real,
                          width: int, height: int, lockOk: seq<bool>): (t: FormatState)
    requires |lockOk| == |formats|
    ensures FirstSuitable(formats, frameRate, width, height, lockOk, 0).None? ==> t == s
    ensures FirstSuitable(formats, frameRate, width, height, lockOk, 0).Some? ==>
      var f := t.activeFormat;
      f == formats[FirstSuitable(formats, frameRate, width, height, lockOk, 0).value]
      && Qualifies(f, frameRate, width, height) && |f.ranges| > 0
      && t.activeVideoMinFrameDuration == s.activeVideoMinFrameDuration.(timescale := f.ranges[0].minFrameDuration.timescale)
      && t.activeVideoMaxFrameDuration == s.activeVideoMaxFrameDuration.(timescale := f.ranges[0].maxFrameDuration.timescale)
  {
    match FirstSuitable(formats, frameRate, width, height, lockOk, 0)
    case None => s
    case Some(i) =>
      var f := formats[i];
      FormatState(
        f,
        s.activeVideoMinFrameDuration.(timescale := f.ranges[0].minFrameDuration.timescale),
        s.activeVideoMaxFrameDuration.(timescale := f.ranges[0].maxFrameDuration.timescale))
  }

  /** When exactly one format qualifies and its lock succeeds, that format is chosen. */
  lemma UniqueCandidateChosen(s: FormatState, formats: seq<Format>, frameRate: real, width: int, height: int,
                              lockOk: seq<bool>, i: nat)
    requires |lockOk| == |formats| && i < |formats|
    requires Qualifies(formats[i], frameRate, width, height) && lockOk[i]
    requires forall j :: 0 <= j < |formats| && j != i ==> !Qualifies(formats[j], frameRate, width, height)
    ensures FirstSuitable(formats, frameRate, width, height, lockOk, 0) == Some(i)
    ensures ApplyFrameRate(s, formats, frameRate, width, height, lockOk).activeFormat == formats[i]
  {
  }

  /** When no format qualifies, the device keeps its active format and durations. */
  lemma NoCandidateKeepsState(s: FormatState, formats: seq<Format>, frameRate: real,
                              width: int, height: int, lockOk: seq<bool>)
    requires |lockOk| == |formats|
    requires forall j :: 0 <= j < |formats| ==> !Qualifies(formats[j], frameRate, width, height)
    ensures ApplyFrameRate(s, formats, frameRate, width, height, lockOk) == s
  {
  }

  /**
   * A lock failure only skips: if the formats from `from` up to `i` do not qualify and the lock
   * on format `i` fails, the search continues after `i` as if it had started there.
   */
  lemma LockFailureSkips(formats: seq<Format>, frameRate: real, width: int, height: int,
                                            lockOk: seq<bool>, from: nat, i: nat)
    requires |lockOk| == |formats| && from <= i < |formats|
    requires forall j :: from <= j < i ==> !Qualifies(formats[j], frameRate, width, height)
    requires !lockOk[i]
    ensures FirstSuitable(formats, frameRate, width, height, lockOk, from)
         == FirstSuitable(formats, frameRate, width, height, lockOk, i + 1)
  {
  }
}

=== FILE: interfaces.dfy ===
/**
 * `DeviceInterface`: a descriptor for one capture device, found by name among the devices
 * a discovery for the given filters returns, with the platform default as fallback.
 * The discovery result and the platform default are parameters.
 */
module Interfaces {
  import opened Wrappers
  import opened Text
  import opened Capture

  datatype DeviceInterface = DeviceInterface(
    deviceName: string, deviceType: seq<DeviceType>, mediaType: MediaType, position: Position,
    device: CaptureDevice)

  /** The initializer's default device-type filter. */
  const DefaultDeviceTypes: seq<DeviceType> := [ExternalUnknown, BuiltInMicrophone, BuiltInWideAngleCamera]

  /** Index of the first device, at or after `from`, whose name contains `searchName`. */
  function FirstMatch(devices: seq<CaptureDevice>, searchName: string, from: nat): (r: Option<nat>)
    requires from <= |devices|
    ensures r.Some? ==> from <= r.value < |devices| && Contains(devices[r.value].localizedName, searchName)
    ensures forall j :: from <= j < (if r.Some? then r.value else |devices|) ==>
              !Contains(devices[j].localizedName, searchName)
    decreases |devices| - from
  {
    if from == |devices| then None
    else if Contains(devices[from].localizedName, searchName) then Some(from)
    else FirstMatch(devices, searchName, from + 1)
  }

  /** The initializer does not crash: a device matches, or there is a platform default to unwrap. */
  predicate Choosable(discovered: seq<CaptureDevice>, searchName: string, platformDefault: Option<CaptureDevice>)
  {
    FirstMatch(discovered, searchName, 0).Some? || platformDefault.Some?
  }

  /** The fields the initializer derives once a device is chosen. */
  function Describe(device: CaptureDevice, mediaType: MediaType): DeviceInterface
  {
    DeviceInterface(device.localizedName, [device.deviceType], mediaType, device.position, device)
  }

  /**
   * `DeviceInterface(searchName:deviceType:mediaType:position:)`. `discovered` is what the
   * discovery for `deviceTypes`, `mediaType` and `position` returns; `platformDefault`
   * is the platform default device for `mediaType`.
   */
  function MakeInterface(searchName: string, deviceTypes: seq<DeviceType>, mediaType: MediaType,
                         position: Position, discovered: seq<CaptureDevice>,
                         platformDefault: Option<CaptureDevice>): (r: DeviceInterface)
    requires Choosable(discovered, searchName, platformDefault)
    ensures FirstMatch(discovered, searchName, 0).Some? ==>
              r.device in discovered && Contains(r.device.localizedName, searchName)
    ensures FirstMatch(discovered, searchName, 0).None? ==> platformDefault == Some(r.device)
    ensures r.deviceName == r.device.localizedName
    ensures r.deviceType == [r.device.deviceType]
    ensures r.mediaType == mediaType
    ensures r.position == r.device.position
  {
    var device := match FirstMatch(discovered, searchName, 0)
      case Some(i) => discovered[i]
      case None => platformDefault.value;
    Describe(device, mediaType)
  }

  /** The chosen device is the first discovered device whose name contains the search string. */
  lemma ChoosesFirstContaining(searchName: string, deviceTypes: seq<DeviceType>, mediaType: MediaType,
                               position: Position, discovered: seq<CaptureDevice>,
                               platformDefault: Option<CaptureDevice>, i: nat)
    requires i < |discovered| && Contains(discovered[i].localizedName, searchName)
    requires forall j :: 0 <= j < i ==> !Contains(discovered[j].localizedName, searchName)
    ensures Choosable(discovered, searchName, platformDefault)
    ensures MakeInterface(searchName, deviceTypes, mediaType, position, discovered, platformDefault).device == discovered[i]
  {
  }

  /** With no discovered name containing the search string, the platform default is chosen. */
  lemma FallsBackToDefault(searchName: string, deviceTypes: seq<DeviceType>, mediaType: MediaType,
                           position: Position, discovered: seq<CaptureDevice>, platformDefault: CaptureDevice)
    requires forall j :: 0 <= j < |discovered| ==> !Contains(discovered[j].localizedName, searchName)
    ensures Choosable(discovered, searchName, Some(platformDefault))
    ensures MakeInterface(searchName, deviceTypes, mediaType, position, discovered, Some(platformDefault)).device
         == platformDefault
  {
  }

  /** With no discovered name containing the search string and no default, the initializer crashes. */
  lemma NoMatchNoDefaultCrashes(searchName: string, discovered: seq<CaptureDevice>)
    requires forall j :: 0 <= j < |discovered| ==> !Contains(discovered[j].localizedName, searchName)
    ensures !Choosable(discovered, searchName, None)
  {
  }

  /** Searching "USB" among a FaceTime camera and a USB video device picks the USB device. */
  lemma UsbSearchExample(faceTime: CaptureDevice, usb: CaptureDevice, platformDefault: Option<CaptureDevice>)
    requires faceTime.localizedName == "FaceTime HD Camera" && usb.localizedName == "USB Video Device"
    ensures Choosable([faceTime, usb], "USB", platformDefault)
    ensures var r := MakeInterface("USB", DefaultDeviceTypes, Video, Unspecified, [faceTime, usb], platformDefault);
            r.device == usb && r.deviceName == "USB Video Device"
  {
    assert 'U' !in faceTime.localizedName;
    NotContainedWithoutFirstChar(faceTime.localizedName, "USB");
    assert "USB" <= usb.localizedName;
    ChoosesFirstContaining("USB", DefaultDeviceTypes, Video, Unspecified, [faceTime, usb], platformDefault, 1);
  }
}

=== FILE: manager.dfy ===
/**
 * `DeviceManager`: owns one capture session, a saved volume and the constant target
 * frame rate, and configures devices into the session.
 */
module Manager {
  import opened Wrappers
  import opened FrameRate
  import opened Capture
  import opened Interfaces
  import opened Volume
  import opened Admission
  import opened Authorization
  import opened Catalog

  class DeviceManager {
    /** Frame rate negotiated for every video device. */
    const frameRate: real := 60.0
    const session: CaptureSession
    /** The volume saved by `mute` and written back by `unmute` and `setVolume`. */
    var volume: real
    var preset: Preset

    /** The manager's audio state: the saved volume and the session's outputs. */
    function AudioState(): Volume.Level
      reads this, session
    {
      Volume.Level(volume, session.outputs)
    }

    /** A new session, already inside a configuration transaction, with the 1920x1080 preset. */
    constructor (admits: (seq<Input>, Input) -> bool)
      ensures fresh(session) && session.admits == admits
      ensures session.inputs == [] && session.outputs == []
      ensures session.configuring && !session.running
      ensures preset == HD1920x1080 && session.sessionPreset == HD1920x1080
      ensures volume == 1.0 && frameRate == 60.0
    {
      var s := new CaptureSession(admits);
      s.BeginConfiguration();
      s.SetPreset(HD1920x1080);
      session := s;
      volume := 1.0;
      preset := HD1920x1080;
    }

    /**
     * `getVolume`, through `getAudioOutput` (`Volume.AudioOutput`): the first output's volume,
     * or that of a fresh output when there is none.
     */
    function GetVolume(): (v: real)
      reads this, session
      requires FirstIsAudioPreview(session.outputs)
      ensures |session.outputs| > 0 ==> v == session.outputs[0].volume
      ensures |session.outputs| == 0 ==> v == FreshPreviewVolume
    {
      AudioOutput(session.outputs).volume
    }

    method Mute()
      requires FirstIsAudioPreview(session.outputs)
      modifies this`volume, session`outputs
      ensures AudioState() == Volume.Mute(old(AudioState()))
    {
      volume := AudioOutput(session.outputs).volume;
      // getAudioOutput().volume = 0: reaches the first output; with none, a detached one
      session.outputs := WithOutputVolume(session.outputs, 0.0);
    }

    method Unmute()
      requires FirstIsAudioPreview(session.outputs)
      modifies session`outputs
      ensures AudioState() == Volume.Unmute(old(AudioState()))
    {
      session.outputs := WithOutputVolume(session.outputs, volume);
    }

    /** `setVolume(volume:)`: `requested` is not used. */
    method SetVolume(requested: real)
      requires FirstIsAudioPreview(session.outputs)
      modifies session`outputs
      ensures AudioState() == Volume.SetVolume(old(AudioState()), requested)
    {
      session.outputs := WithOutputVolume(session.outputs, volume);
    }

    method ToggleMute() returns (audible: bool)
      requires FirstIsAudioPreview(session.outputs)
      modifies this`volume, session`outputs
      ensures (AudioState(), audible) == Volume.ToggleMute(old(AudioState()))
    {
      var output := AudioOutput(session.outputs);
      var attached := |session.outputs| > 0;
      if output.volume == 0.0 {
        Unmute();
      } else {
        Mute();
      }
      // `output` is the first output object itself when one is attached, so it sees the change
      audible := if attached then AudioOutput(session.outputs).volume > 0.0 else output.volume > 0.0;
    }

    /** `addInput(input:)`: nothing for an absent or refused input. */
    method AddInput(input: Option<Input>)
      modifies session`inputs
      ensures session.inputs == AfterAdd(session.admits, old(session.inputs), input)
    {
      if input.None? {
        return;
      }
      if session.CanAddInput(input.value) {
        session.AddInput(input.value);
      }
    }

    /** `addInput(inputs:)`. */
    method AddInputs(inputs: seq<Input>)
      modifies session`inputs
      ensures session.inputs == AfterAddAll(session.admits, old(session.inputs), inputs)
    {
      for k := 0 to |inputs|
        invariant AfterAddAll(session.admits, session.inputs, inputs[k..])
               == AfterAddAll(session.admits, old(session.inputs), inputs)
      {
        assert inputs[k..][1..] == inputs[k + 1..];
        AddInput(Some(inputs[k]));
      }
    }

    /**
     * `addInput(interface:)`: `inputCreated` is whether creating the device input succeeds
     * (`try?` turns a failure into an absent input).
     */
    method AddInputFor(iface: DeviceInterface, inputCreated: bool)
      modifies session`inputs
      ensures session.inputs
           == AfterAdd(session.admits, old(session.inputs), if inputCreated then Some(DeviceInput(iface.device)) else None)
    {
      var input := if inputCreated then Some(DeviceInput(iface.device)) else None;
      AddInput(input);
    }

    method ResetInputs()
      modifies session`inputs
      ensures session.inputs == []
    {
      var attached := session.inputs;
      for k := 0 to |attached|
        invariant session.inputs == attached[k..]
      {
        session.RemoveInput(attached[k]);
      }
    }

    /** `addAudioOutput(deviceUID:)`: appended without an admission check. */
    method AddAudioOutput(deviceUID: string)
      modifies session`outputs
      ensures session.outputs == old(session.outputs) + [AudioPreviewOutput(Some(deviceUID), 1.0)]
    {
      var audioOutput := AudioPreviewOutput(Some(deviceUID), 1.0);
      session.AddOutput(audioOutput);
    }

    method ResetOutputs()
      modifies session`outputs
      ensures session.outputs == []
    {
      var attached := session.outputs;
      for k := 0 to |attached|
        invariant session.outputs == attached[k..]
      {
        session.RemoveOutput(attached[k]);
      }
    }

    /** Commit the configuration transaction, then start the session. */
    method StartRunning()
      modifies session`configuring, session`running
      ensures !session.configuring && session.running
    {
      session.CommitConfiguration();
      session.StartRunning();
    }

    /** Detach every input and output, then stop the session. */
    method StopRunning()
      modifies session`inputs, session`outputs, session`running
      ensures session.inputs == [] && session.outputs == [] && !session.running
    {
      ResetInputs();
      ResetOutputs();
      session.StopRunning();
    }

    /**
     * The body of `configure(interface:)` as one synchronous step. `statuses` and `granted`
     * answer the authorization queries and access prompts of successive entries,
     * `inputCreated` whether the device input can be created, `lockOk` the configuration
     * lock per format of the device.
     */
    method Configure(iface: DeviceInterface, statuses: seq<AuthorizationStatus>, granted: seq<bool>,
                     inputCreated: bool, lockOk: seq<bool>)
      requires |granted| == |statuses| && Settles(statuses, granted)
      requires |lockOk| == |iface.device.formats|
      modifies session`inputs, session`outputs, iface.device
      ensures var authorized := ReachesAuthorized(statuses, granted);
              var input := if inputCreated then Some(DeviceInput(iface.device)) else None;
              session.inputs == if authorized then AfterAdd(session.admits, old(session.inputs), input)
                                else old(session.inputs)
      ensures session.outputs
           == if ReachesAuthorized(statuses, granted) && iface.mediaType == Audio
              then old(session.outputs) + [AudioPreviewOutput(Some(iface.device.uniqueID), 1.0)]
              else old(session.outputs)
      ensures iface.device.ActiveState()
           == if ReachesAuthorized(statuses, granted) && iface.mediaType == Video
              then ApplyFrameRate(old(iface.device.ActiveState()), iface.device.formats, frameRate,
                                  DefaultWidth, DefaultHeight, lockOk)
              else old(iface.device.ActiveState())
      decreases |statuses|
    {
      match statuses[0]
      case Authorized =>
        AddInputFor(iface, inputCreated);
        if iface.mediaType == Video {
          var _ := iface.device.SetFrameRate(frameRate, DefaultWidth, DefaultHeight, lockOk);
        } else if iface.mediaType == Audio {
          AddAudioOutput(iface.device.uniqueID);
        }
      case NotDetermined =>
        if granted[0] {
          Configure(iface, statuses[1..], granted[1..], inputCreated, lockOk);
        }
      case Restricted =>
        return;
      case Denied =>
        return;
    }

    /**
     * `getAllDevices(mediaType:)`: `listed` is what the discovery for the external-unknown and
     * built-in-microphone device types, `mediaType` and an unspecified position returns;
     * each descriptor is built by looking its name up again among `rediscovered`, which the
     * initializer's own discovery (default filters) returns.
     */
    static method GetAllDevices(mediaType: MediaType, listed: seq<CaptureDevice>,
                                rediscovered: seq<CaptureDevice>, platformDefault: Option<CaptureDevice>)
      returns (r: seq<DeviceInterface>)
      requires AllChoosable(listed, rediscovered, platformDefault)
      ensures |r| == |listed| && NamesNonIncreasing(r)
      ensures multiset(r) == multiset(DescribeAll(listed, mediaType, rediscovered, platformDefault))
    {
      var deviceInterfaces: seq<DeviceInterface> := [];
      for k := 0 to |listed|
        invariant AllChoosable(listed[..k], rediscovered, platformDefault)
        invariant deviceInterfaces == DescribeAll(listed[..k], mediaType, rediscovered, platformDefault)
      {
        var device := listed[k];
        var iface := MakeInterface(device.localizedName, DefaultDeviceTypes, mediaType, Unspecified,
                                   rediscovered, platformDefault);
        deviceInterfaces := deviceInterfaces + [iface];
        assert listed[..k + 1][..k] == listed[..k];
      }
      assert listed[..|listed|] == listed;
      r := SortByNameDescending(deviceInterfaces);
    }

    /** `getAllDevices` as evidently intended: every listed device described by itself. */
    static method GetAllDevicesExact(mediaType: MediaType, listed: seq<CaptureDevice>)
      returns (r: seq<DeviceInterface>)
      ensures |r| == |listed| && NamesNonIncreasing(r)
      ensures multiset(r) == multiset(DescribeEach(listed, mediaType))
    {
      var deviceInterfaces: seq<DeviceInterface> := [];
      for k := 0 to |listed|
        invariant deviceInterfaces == DescribeEach(listed[..k], mediaType)
      {
        deviceInterfaces := deviceInterfaces + [Describe(listed[k], mediaType)];
        assert listed[..k + 1][..k] == listed[..k];
      }
      assert listed[..|listed|] == listed;
      r := SortByNameDescending(deviceInterfaces);
    }
  }
}

=== FILE: text.dfy ===
/**
 * The two string operations the device code relies on: the case-sensitive
 * substring test behind `String.contains` and the ordering behind `String >`.
 * Strings are sequences of characters; Unicode normalisation and grapheme
 * clustering are not modelled.
 */
module Text {

  /** `needle` occurs in `hay` starting at index `i`. */
  predicate OccursAt(hay: string, needle: string, i: nat)
  {
    i + |needle| <= |hay| && hay[i..i + |needle|] == needle
  }

  /** Case-sensitive substring test: `needle` is a prefix of some suffix of `hay`. */
  predicate Contains(hay: string, needle: string)
    decreases |hay|
  {
    needle <= hay || (|hay| > 0 && Contains(hay[1..], needle))
  }

  /** The recursive test agrees with the index-based definition of "occurs somewhere". */
  lemma {:induction false} ContainsIffOccurs(hay: string, needle: string)
    ensures Contains(hay, needle) <==> exists i: nat :: OccursAt(hay, needle, i)
    decreases |hay|
  {
    if |hay| > 0 {
      ContainsIffOccurs(hay[1..], needle);
    }
    if Contains(hay, needle) {
      if needle <= hay {
        assert OccursAt(hay, needle, 0);
      } else {
        var i: nat :| OccursAt(hay[1..], needle, i);
        assert hay[i + 1..i + 1 + |needle|] == hay[1..][i..i + |needle|];
        assert OccursAt(hay, needle, i + 1);
      }
    }
    if i: nat :| OccursAt(hay, needle, i) {
      if i == 0 {
        assert hay[..|needle|] == needle;
      } else {
        assert hay[1..][i - 1..i - 1 + |needle|] == hay[i..i + |needle|];
        assert OccursAt(hay[1..], needle, i - 1);
      }
    }
  }

  /** Every string contains itself. */
  lemma ContainsSelf(s: string)
    ensures Contains(s, s)
  {
  }

  /** A needle whose first character never appears in `hay` does not occur in it. */
  lemma {:induction false} NotContainedWithoutFirstChar(hay: string, needle: string)
    requires |needle| > 0 && needle[0] !in hay
    ensures !Contains(hay, needle)
    decreases |hay|
  {
    if |hay| > 0 {
      assert hay[0] in hay;
      assert forall c :: c in hay[1..] ==> c in hay;
      NotContainedWithoutFirstChar(hay[1..], needle);
    }
  }

  /** Lexicographic order by character code: the model of Swift's `String <`. */
  predicate Less(a: string, b: string)
    decreases |a|
  {
    if |a| == 0 then |b| > 0
    else if |b| == 0 then false
    else if a[0] < b[0] then true
    else a[0] == b[0] && Less(a[1..], b[1..])
  }

  /** Exactly one of `a < b`, `a == b`, `b < a` holds. */
  lemma {:induction false} LessTrichotomy(a: string, b: string)
    ensures Less(a, b) ==> !Less(b, a) && a != b
    ensures !Less(a, b) && !Less(b, a) ==> a == b
    decreases |a|
  {
    if |a| > 0 && |b| > 0 && a[0] == b[0] {
      LessTrichotomy(a[1..], b[1..]);
      assert a == [a[0]] + a[1..] && b == [b[0]] + b[1..];
    }
  }
}

=== FILE: volume.dfy ===
/**
 * The manager's volume save-and-restore state machine. The state is the saved `volume`
 * field together with the session's outputs; the audio output consulted is the session's
 * first output, or a fresh, detached audio-preview output when the session has none
 * (so writes to it are lost).
 */
module Volume {
  import opened Wrappers
  import opened Capture

  /** Volume of a freshly created audio-preview output: a framework value, left unknown. */
  const FreshPreviewVolume: real

  /** `getAudioOutput` force-casts the first output: it must be an audio-preview output. */
  predicate FirstIsAudioPreview(outputs: seq<Output>)
  {
    |outputs| == 0 || outputs[0].AudioPreviewOutput?
  }

  /** `getAudioOutput`: the first output, or a fresh detached audio-preview output. */
  function AudioOutput(outputs: seq<Output>): (o: Output)
    requires FirstIsAudioPreview(outputs)
    ensures o.AudioPreviewOutput?
    ensures |outputs| > 0 ==> o == outputs[0]
    ensures |outputs| == 0 ==> o.volume == FreshPreviewVolume && o.outputDeviceUniqueID.None?
  {
    if |outputs| == 0 then AudioPreviewOutput(None, FreshPreviewVolume) else outputs[0]
  }

  /** The volume `getVolume` reports. */
  function OutputVolume(outputs: seq<Output>): real
    requires FirstIsAudioPreview(outputs)
  {
    AudioOutput(outputs).volume
  }

  /** `getAudioOutput().volume = v`: only the first output changes, and only its volume. */
  function WithOutputVolume(outputs: seq<Output>, v: real): (r: seq<Output>)
    requires FirstIsAudioPreview(outputs)
    ensures |r| == |outputs| && FirstIsAudioPreview(r)
    ensures |outputs| > 0 ==>
              r[1..] == outputs[1..] && OutputVolume(r) == v
              && r[0].outputDeviceUniqueID == outputs[0].outputDeviceUniqueID
  {
    if |outputs| == 0 then [] else outputs[0 := outputs[0].(volume := v)]
  }

  /** The saved `volume` field of the manager and the session's outputs. */
  datatype Level = Level(saved: real, outputs: seq<Output>)

  predicate Valid(l: Level)
  {
    FirstIsAudioPreview(l.outputs)
  }

  /** `mute`: save the current output volume, then set the output volume to 0. */
  function Mute(l: Level): (m: Level)
    requires Valid(l)
    ensures Valid(m) && |m.outputs| == |l.outputs|
    ensures m.saved == OutputVolume(l.outputs)
    ensures |l.outputs| > 0 ==> OutputVolume(m.outputs) == 0.0 && m.outputs[1..] == l.outputs[1..]
    ensures m.outputs == WithOutputVolume(l.outputs, 0.0)
  {
    Level(OutputVolume(l.outputs), WithOutputVolume(l.outputs, 0.0))
  }

  /** `unmute`: write the saved volume back to the output. */
  function Unmute(l: Level): (u: Level)
    requires Valid(l)
    ensures Valid(u) && u.saved == l.saved && |u.outputs| == |l.outputs|
    ensures |l.outputs| > 0 ==> OutputVolume(u.outputs) == l.saved && u.outputs[1..] == l.outputs[1..]
    ensures |l.outputs| == 0 ==> u == l
    ensures u.outputs == WithOutputVolume(l.outputs, l.saved)
  {
    Level(l.saved, WithOutputVolume(l.outputs, l.saved))
  }

  /** `setVolume(volume:)`: the argument is ignored; the effect is that of `unmute`. */
  function SetVolume(l: Level, requested: real): (s: Level)
    requires Valid(l)
    ensures s == Unmute(l)
  {
    Level(l.saved, WithOutputVolume(l.outputs, l.saved))
  }

  /**
   * `toggleMute`: unmute when the output volume is exactly 0, mute otherwise; report
   * whether the output captured at the start is audible afterwards. With no outputs that
   * output is a detached fresh one, untouched by the mute.
   */
  function ToggleMute(l: Level): (r: (Level, bool))
    requires Valid(l)
    ensures Valid(r.0)
    ensures r.0 == if OutputVolume(l.outputs) == 0.0 then Unmute(l) else Mute(l)
    ensures |l.outputs| > 0 ==> (r.1 <==> OutputVolume(r.0.outputs) > 0.0)
    ensures |l.outputs| > 0 ==> (r.1 <==> OutputVolume(l.outputs) == 0.0 && l.saved > 0.0)
    ensures |l.outputs| == 0 ==> (r.1 <==> FreshPreviewVolume > 0.0)
  {
    var next := if OutputVolume(l.outputs) == 0.0 then Unmute(l) else Mute(l);
    var audible := if |l.outputs| == 0 then OutputVolume(l.outputs) > 0.0 else OutputVolume(next.outputs) > 0.0;
    (next, audible)
  }

  /** `mute` then `unmute` restores the outputs exactly, the original volume included. */
  lemma MuteUnmuteRestores(l: Level)
    requires Valid(l)
    ensures Unmute(Mute(l)).outputs == l.outputs
    ensures OutputVolume(Unmute(Mute(l)).outputs) == OutputVolume(l.outputs)
  {
  }

  /**
   * With an attached output, a second `mute` before `unmute` saves 0, so the following `unmute`
   * leaves the output silent.
   */
  lemma MuteTwiceForgetsLevel(l: Level)
    requires Valid(l) && |l.outputs| > 0
    ensures Mute(Mute(l)).saved == 0.0
    ensures OutputVolume(Unmute(Mute(Mute(l))).outputs) == 0.0
  {
  }

  /** With an attached output, a second `toggleMute` restores the outputs and the reported audibility. */
  lemma ToggleMuteTwiceRestores(l: Level)
    requires Valid(l) && |l.outputs| > 0
    ensures ToggleMute(ToggleMute(l).0).0.outputs == l.outputs
    ensures ToggleMute(ToggleMute(l).0).1 <==> OutputVolume(l.outputs) > 0.0
  {
  }

  /**
   * With no outputs every write reaches a detached output: only `mute` changes the state, saving
   * the fresh volume; `toggleMute` unmutes (a no-op) only if that fresh volume is 0, and
   * reports whether the fresh volume is positive.
   */
  lemma DetachedOutputWhenEmpty(l: Level)
    requires l.outputs == []
    ensures Mute(l) == Level(FreshPreviewVolume, [])
    ensures Unmute(l) == l && SetVolume(l, 0.0) == l
    ensures FreshPreviewVolume == 0.0 ==> ToggleMute(l) == (l, false)
    ensures FreshPreviewVolume != 0.0 ==> ToggleMute(l) == (Level(FreshPreviewVolume, []), FreshPreviewVolume > 0.0)
  {
  }
}

=== FILE: wrappers.dfy ===
/** The optional value used wherever the Swift source has an optional (`T?`). */
module Wrappers {

  datatype Option<+T> = None | Some(value: T)
}
